=== FILE: README.md ===
# go-city generator core in Dafny

go-city builds a line-art city block from a seed. `factory.go` holds all of
its logic:

- the ground cube;
- `buildExtension`, a recursive subdivider that cuts the block's footprint into
  quadrants and raises striped cubes on some of them;
- `StripedCube.Paths`, which turns each cube into 3D line segments (mullions
  and horizontal bands) for the `ln` renderer.

This project models that core as pure functions over exact reals and proves
what they produce.

- `geometry.dfy` (module `Geometry`): vectors, boxes, the `StripedCube`
  record, `createStripedCube`, and Go's `int(x)` conversion (truncation
  toward zero).
- `draws.dfy` (module `Draws`): the random source. It is an endless stream of
  draws in [0, 1) indexed by a cursor. `rand.Intn(10)` is taken as the floor of
  ten times one draw.
- `extension.dfy` (module `Extension`): `buildExtension`. It does not touch a
  global scene, a global `globalHeight` and the ambient generator. Instead it
  takes a cell (footprint plus z band), a draw cursor and the running height.
  It returns the cubes added in scene order, the cursor after its draws, and
  the new running height. Termination uses the number of halvings of the
  cell's width still needed to reach width 1. Every recursive call is on a
  cell exactly half as wide.
- `wireframe.dfy` (module `Wireframe`): `StripedCube.Paths` as a sequence of
  segments: the mullions of stripe positions 0..S, then bands 0..nb from the
  foot up.
- `city.dfy` (module `City`): the generation part of `main`. It builds the
  ground cube, makes one call of `buildExtension` on the whole area in band
  [1, 2], and proves that every resulting cube can be drawn.

Details of `factory.go` that the model keeps as written:

- The stripe count of a built cube is `int((max.X - min.X) / 2 * 4)` of the
  cell being split, not of the quadrant. So a cube carries about four stripes
  per unit of its own width.
- The continue test compares against `float32(0.8)`, which is exactly
  13421773 / 2^24, not 0.8. The slice test's `float32(0.5)` is exact.
- A cell that fails the guard adds nothing and takes no draw.
- Drawing a cube takes no draw.
- The ground cube does not update `globalHeight`.

## Model

| member | source | states |
|---|---|---|
| Geometry.CreateStripedCube | factory.go:162-166 | The corners and the stripe count are stored unchanged, and the bounding box is made of the two corners. |
| Geometry.Trunc | factory.go:175 | Go's `int(x)`: for x >= 0 the largest integer not above x, for x <= 0 the smallest integer not below x. |
| Draws.Intn10 | factory.go:186 | `rand.Intn(10)` gives an integer in [0, 10): the whole part of ten times the draw. |
| Extension.Expands | factory.go:170 | The guard: a cell is worked on only when its top is below 600 and it is wider than 1. |
| Extension.StripeCount | factory.go:175 | The shared stripe count is within one below twice the cell's width, so it is at least 2 whenever the cell passes the guard (width > 1). |
| Extension.Quarter | factory.go:178 | Each quadrant (also lines 192, 206, 220) has exactly half the width and depth of the cell, carries the cell's z band, and lies inside the cell. South-west keeps the cell's min corner, north-east its max corner, north-west its min x and max y, south-east its max x and min y. |
| Extension.QuartersTile | factory.go:177-231 | The four quadrants cover the cell's footprint (a point is in the cell iff it is in some quadrant), and their interiors are pairwise disjoint. |
| Extension.QuadrantCube | factory.go:180 | The cube built on a quadrant (also lines 194, 208, 222) spans exactly the quadrant and carries the stripe count of the cell being split. |
| Extension.Rise | factory.go:186 | The continuation height `2 + Intn(10)` is a whole number of levels between 2 and 11. |
| Extension.Raise | factory.go:187 | A continuation cell keeps the quadrant's footprint corner for corner and stacks a band of the drawn height on the quadrant's top. |
| Extension.RankDrops | factory.go:177-189 | A cell half as wide as a cell that passed the guard has a strictly smaller measure, so every slice and continuation call terminates. |
| Extension.BuildExtension | factory.go:168-237 | Failing the guard adds nothing, consumes no draw and keeps the height. Passing it consumes at least four draws, and a first draw above 0.5 puts the south-west quadrant cube first. Every call consumes at least two draws per cube. The returned height is the maximum of the old height and every added cube's top, so it never decreases. Every cube is built with at least two stripes, under height 600. |
| Extension.VisitQuadrant | factory.go:177-189 | One quadrant consumes at least one draw. A draw above 0.5 makes its first cube the quadrant's cube. The height and stripe facts are the same as for BuildExtension. |
| Extension.ExtensionCount | factory.go:168-237 | The exact number of draws a call takes: four per split cell, one per cube and one per continuation. A cell is split exactly when it passes the guard, each split cell stands at most four cubes on its quadrants, and there are no more continuations than cubes. |
| Extension.QuadrantCount | factory.go:177-189 | The same exact count for one quadrant's visit, with its own decision draw. |
| Extension.SliceCount | factory.go:177-178 | A visit that slices takes its decision draw plus the exact count of the call on the quadrant: four per split cell, one per cube, one per continuation. |
| Extension.ContinueCount | factory.go:177-188 | A visit that builds and continues takes its decision, continue and height draws plus the exact count of the call on the raised cell. Its own cube and continuation each add one to that count. |
| Extension.SliceStep | factory.go:177-178 | A decision draw of at most 0.5 makes the visit exactly the call on the quadrant with the next cursor and the same height. |
| Extension.StopStep | factory.go:179-185 | A build whose continue draw is above float32(0.8) adds exactly the quadrant's cube, takes exactly two draws, and raises the height to the cell's top if that is higher. |
| Extension.ContinueStep | factory.go:179-188 | A build that continues adds the quadrant's cube followed by exactly what the call on the quadrant raised by the third draw's height adds, from three draws on. |
| Extension.FourBuilds | factory.go:177-231 | With eight draws above float32(0.8), a passing cell gets exactly the south-west, north-east, north-west and south-east quadrant cubes in that order, takes exactly eight draws, and its height becomes the cell's top if that is higher. |
| Extension.ExtensionFits | factory.go:168-237 | Every cube added from a proper cell is a proper box inside the cell's footprint, at or above the band's foot and reaching its top. It is at most half as wide as the cell and square if the cell is. Its height is the band's or a whole number of levels in [2, 11]. |
| Extension.QuadrantFits | factory.go:177-189 | The same containment for the cubes one quadrant's visit adds. |
| Extension.SliceFits | factory.go:177-178 | The cubes a slice adds fit the cell, because they fit the quadrant, which lies inside the cell. |
| Extension.ContinueFits | factory.go:180-188 | The cubes a continuing build adds fit the cell: the quadrant's cube, then the raised cell's cubes, which are a whole number of levels tall. |
| Extension.ExtensionReads | factory.go:168-237 | No draw outside the range from the starting cursor to the returned one affects the result. Two streams that agree on that range give the same cubes, cursor, height and tallies. |
| Extension.QuadrantReads | factory.go:177-189 | The same frame property for one quadrant's visit. |
| Extension.SliceReads | factory.go:177-178 | A slice is unaffected by draws outside its decision draw and the range the call on the quadrant reads. |
| Extension.ContinueReads | factory.go:185-187 | A continuation is unaffected by draws outside its three draws and the range the call on the raised cell reads. |
| City.Base | factory.go:264 | The ground cube spans (-50, -50, 0) to (50, 50, 1) with int(100 * 3) = 300 stripes. |
| City.FirstCell | factory.go:268 | The first call works on the whole area with band [1, 2], a proper square cell. |
| City.Generate | factory.go:239-268 | The scene starts with the ground cube. The final height is the largest top among the generated cubes (0 when there are none, and only then), at least 2 otherwise and below 600. Every generated cube stays inside the area above the ground cube, and at least four draws are consumed. |
| City.SceneDrawable | factory.go:264-268 | Every cube of every generated scene is drawable: at least one stripe, at least two bands, a square footprint, and perforation gaps wider than two beams. |
| Wireframe.BandCount | factory.go:110 | The number of bands is the whole part of twice the cube's height: for a cube of non-negative height it is at most twice the height and more than twice the height less one. |
| Wireframe.Step | factory.go:82-84 | Position i of n splits [lo, hi] in the ratio i : n - i: n times its distance from lo is i times the length. Bands use the same division (lines 113-114). |
| Wireframe.StepWithin | factory.go:82-84 | A stripe or band position `lo + (hi - lo) * i / n` lies between lo and hi, at lo for i = 0 and at hi for i = n. |
| Wireframe.Gap | factory.go:111 | The perforation gap times the stripe count is the cube's X width. |
| Wireframe.Mullions | factory.go:81-105 | Positions 0 and S emit 4 segments and inner positions 8. All of them run from z1 to z2 at constant (x, y) on a face plane, offset by 0 or ±0.03 from the stripe position. |
| Wireframe.MullionPosts | factory.go:86-103 | Every place Mullions allows is used: at an end one post on each of the four faces at the stripe position, at an inner position posts at -0.03 and +0.03 on each of the four faces. |
| Wireframe.MullionsBefore | factory.go:81-106 | The mullions of positions 0..k-1 number 8k - 4, and 8S for all S + 1 positions. They are all upright on a face plane. |
| Wireframe.MullionsPrefix | factory.go:81-106 | The mullions of the first i positions are a prefix of the mullions of the first k positions whenever i <= k: the loop only appends. |
| Wireframe.MullionBlock | factory.go:81-106 | In the mullions of positions 0..k-1, the block after the segments of positions before i is exactly the mullions of position i. |
| Wireframe.MullionsAt | factory.go:81-106 | After the bands are appended, position i's mullions are still at segments 8i - 4 up to 8i + 4 (from 0 at the first position, up to 8S at the last). |
| Wireframe.Outline | factory.go:116-120 | A solid band is four level segments along the side faces. Each starts on a min side and ends on a max side. |
| Wireframe.OutlineSides | factory.go:116-120 | The solid outline draws all four sides of the footprint at its height: x = x1 and x = x2 from y1 to y2, and y = y1 and y = y2 from x1 to x2. |
| Wireframe.PiecesAlongY | factory.go:125-129 | The inner pieces of a west or east face are one level segment per inner stripe position. |
| Wireframe.PiecesAlongX | factory.go:141-145 | The inner pieces of a south or north face are one level segment per inner stripe position. |
| Wireframe.FaceAlongY | factory.go:123-137 | A perforated west or east face is S + 1 level segments. |
| Wireframe.FaceAlongX | factory.go:139-153 | A perforated south or north face is S + 1 level segments. |
| Wireframe.FaceCorners | factory.go:123-153 | Each face starts with a corner piece from its min corner and one into its max corner, each a gap less 0.03 long, followed by the inner pieces. |
| Wireframe.Perforated | factory.go:121-155 | A perforated band is 4 (S + 1) segments, all level at the band's height along a side face. |
| Wireframe.PerforatedFaces | factory.go:121-155 | A perforated band is the faces x = x1, x = x2, y = y1, y = y2 in that order, S + 1 segments each. |
| Wireframe.BandAt | factory.go:112-156 | Band i of nb has 4 segments at the foot and the top and 4 (S + 1) in between, all at height z1 + (z2 - z1) i / nb. |
| Wireframe.BandHeightsRise | factory.go:113-114 | Band heights rise strictly from band 0 to band nb. |
| Wireframe.BandsBefore | factory.go:110-156 | The bands start with the closed outline at the foot, and every band segment is horizontal within the cube's height. |
| Wireframe.BandsPrefix | factory.go:112-156 | The segments of the first i bands are a prefix of those of the first k bands whenever i <= k: the band loop only appends. |
| Wireframe.BandBlock | factory.go:112-156 | In the bands 0..k-1, the block after the segments of the bands below i is exactly band i. |
| Wireframe.BandsAt | factory.go:112-156 | After the mullions are put in front, band i still occupies the block that follows the mullions and the bands below it. |
| Wireframe.TopOutline | factory.go:113-120 | The last band is a solid outline at the cube's top, so the band segments end with the top outline. |
| Wireframe.BandsCount | factory.go:110-156 | Bands 0..k-1 hold 4 segments per outline and 4 (S + 1) per perforated band. |
| Wireframe.Paths | factory.go:47-160 | There are 8S + 8 + (nb - 1) * 4 (S + 1) segments. The first 8S are upright mullions on the face planes and the rest are horizontal. The foot outline follows the mullions and the top outline closes the sequence. |
| Wireframe.PathsMullions | factory.go:81-106 | Segments 8i - 4 up to 8i + 4 of Paths (from 0 for i = 0, up to 8S for i = S) are exactly the mullions of stripe position i. |
| Wireframe.PathsBands | factory.go:110-156 | Band i sits in Paths right after the 8S mullion segments, the foot outline and the perforated bands below it, and is exactly BandAt(i). |
| Wireframe.PiecesAlongYSpan | factory.go:125-137 | On the x faces, piece m lies on its face x = x0 and runs from 0.03 past stripe position m to one gap less 0.03 past it. That end is 0.03 before position m + 1 if and only if the footprint is square, because the gap comes from the X width. |
| Wireframe.PiecesAlongXSpan | factory.go:141-154 | On the y faces, piece m lies on its face y = y0 and runs from 0.03 past stripe position m to 0.03 before position m + 1, for every footprint. |
| Wireframe.FaceOverlap | factory.go:124-128 | On a square footprint with at least two stripes, the last inner piece of an x face starts where the face's trailing corner piece starts and ends inside it. |
| Wireframe.LastPieceOverlapsCorner | factory.go:121-137 | In a perforated band of a square cube with at least two stripes, segment S of the west face starts where its segment 1 starts and ends inside it, and the same holds for segments 2S + 1 and S + 2 of the east face, so those spans are drawn twice. |
| Wireframe.FaceOverlapAlongX | factory.go:139-145 | On a south or north face with at least two stripes, the last inner piece starts where the trailing corner piece starts and ends inside it, on every footprint. |
| Wireframe.LastPieceOverlapsCornerAlongX | factory.go:139-154 | In every perforated band with at least two stripes, segment 3S + 2 is the south face's last inner piece. It starts where segment 2S + 3, the face's trailing corner piece, starts and ends inside it. Segments 4S + 3 and 3S + 4 do the same on the north face, so those spans are drawn twice on every footprint. |

## Left out

- Rendering and file output (factory.go:274-331): camera set-up, `scene.Render`, PNG/SVG writing and file names are calls into the `ln` library and I/O.
- Seed handling and logging (factory.go:248-261, 233-235, 272): the seed comes from the command line or the clock, and `println` and `fmt` only log. The model takes the draw stream itself as its input.
- The `math/rand` algorithm: Go's generator is replaced by an arbitrary stream of draws in [0, 1). `Intn(10)` is modelled as taking one draw and returning floor(10u). Go derives `Intn` from its own source words, so the mapping from a seed to the draws is not modelled.
- IEEE float64 and float32 rounding: coordinates, widths and heights are exact reals. `float32(0.8)` is the one constant whose rounding changes a comparison, and it is kept exactly.
- `Antenna`, `createAntenna` and `FloatToString` (factory.go:15-40): unused by generation. The antenna's only use is commented out, and `FloatToString` only builds file names.
- The commented-out first `Paths` body (factory.go:52-77): it is not code.
- Wireframe.Paths: requires at least one stripe and one band. With zero of either, Go divides by zero and draws NaN coordinates, which have no real-number counterpart. Every cube the generator makes meets the requirement (City.SceneDrawable).
- Extension.BuildExtension: its own contract gives the draws as lower bounds. The exact count is Extension.ExtensionCount, which uses the two tallies the result carries.
- Extension.ExtensionReads: states a frame (draws outside the range do not matter), not that every draw inside it matters. A draw compared with a threshold or cut to a whole number can change within limits without changing the result.
- Extension.QuadrantReads: the same frame property as ExtensionReads, for one quadrant.
- Extension.SliceReads: the same frame property, for a slice.
- Extension.ContinueReads: the same frame property, for a continuation.
- `ln.Scene`: the scene type of the `ln` library is not modelled. The scene is the returned list of cubes in `scene.Add` order.

=== FILE: city.dfy ===
/**
 * The generation part of `main`: the ground cube followed by one call of
 * buildExtension on the whole area, one level up. Seed handling, logging
 * and rendering are outside this module.
 */
module City {
  import opened Geometry
  import opened Draws
  import opened Extension
  import opened Wireframe

  const AreaMinX: real := -50.0
  const AreaMinY: real := -50.0
  const AreaMaxX: real := 50.0
  const AreaMaxY: real := 50.0
  const LevelHeight: real := 1.0

  /** The scene in insertion order, the final `globalHeight`, and the draws consumed. */
  datatype Model = Model(scene: seq<StripedCube>, height: real, draws: nat)

  /** The ground cube spanning the whole area at [0, LevelHeight]. */
  function Base(): (k: StripedCube)
    ensures k.min == Vector(-50.0, -50.0, 0.0) && k.max == Vector(50.0, 50.0, 1.0)
    ensures k.stripes == 300
    ensures Proper(k) && k.box == Box(k.min, k.max)
  {
    CreateStripedCube(Vector(AreaMinX, AreaMinY, 0.0), Vector(AreaMaxX, AreaMaxY, LevelHeight),
                      Trunc((AreaMaxX - AreaMinX) * 3.0))
  }

  /** The first cell handed to buildExtension: the whole area, band [LevelHeight, 2 * LevelHeight]. */
  function FirstCell(): (c: Cell)
    ensures c.lo == Vector(-50.0, -50.0, 1.0) && c.hi == Vector(50.0, 50.0, 2.0)
    ensures ProperCell(c) && Width(c) == Depth(c)
  {
    Cell(Vector(AreaMinX, AreaMinY, LevelHeight), Vector(AreaMaxX, AreaMaxY, 2.0 * LevelHeight))
  }

  /** One generation from a stream of draws, with `globalHeight` starting at 0. */
  function Generate(rng: Stream): (m: Model)
    ensures |m.scene| >= 1 && m.scene[0] == Base()
    ensures IsMaxTop(0.0, m.scene[1..], m.height)
    ensures m.height < MaxHeight
    ensures |m.scene| == 1 <==> m.height == 0.0
    ensures |m.scene| > 1 ==> m.height >= 2.0
    ensures forall i :: 1 <= i < |m.scene| ==> Built(m.scene[i]) && FitsCell(m.scene[i], FirstCell())
    ensures m.draws >= 4
  {
    var g := BuildExtension(rng, FirstCell(), 0, 0.0);
    FirstGrowth(rng);
    var m := Model([Base()] + g.added, g.height, g.pos);
    SceneFacts(g, m);
    m
  }

  /** What the first buildExtension call returns: cubes of the area with tops in [2, 600), at least four draws. */
  predicate FirstFacts(g: Growth) {
    && g.pos >= 4
    && IsMaxTop(0.0, g.added, g.height)
    && (forall i :: 0 <= i < |g.added| ==> Built(g.added[i]) && FitsCell(g.added[i], FirstCell()))
    && (forall i :: 0 <= i < |g.added| ==> 2.0 <= g.added[i].max.z < MaxHeight)
  }

  lemma FirstGrowth(rng: Stream)
    ensures FirstFacts(BuildExtension(rng, FirstCell(), 0, 0.0))
  {
    var cell := FirstCell();
    var g := BuildExtension(rng, cell, 0, 0.0);
    ExtensionFits(rng, cell, 0, 0.0);
    assert Expands(cell);
    assert g.pos >= 4;
    assert IsMaxTop(0.0, g.added, g.height);
    forall i | 0 <= i < |g.added|
      ensures 2.0 <= g.added[i].max.z < MaxHeight
    {
      assert FitsCell(g.added[i], cell) && Built(g.added[i]);
    }
    assert FirstFacts(g);
  }

  lemma SceneFacts(g: Growth, m: Model)
    requires FirstFacts(g) && m == Model([Base()] + g.added, g.height, g.pos)
    ensures |m.scene| >= 1 && m.scene[0] == Base()
    ensures IsMaxTop(0.0, m.scene[1..], m.height)
    ensures m.height < MaxHeight
    ensures |m.scene| == 1 <==> m.height == 0.0
    ensures |m.scene| > 1 ==> m.height >= 2.0
    ensures forall i :: 1 <= i < |m.scene| ==> Built(m.scene[i]) && FitsCell(m.scene[i], FirstCell())
    ensures m.draws >= 4
  {
    assert m.scene[1..] == g.added;
    if |g.added| > 0 {
      assert g.added[0].max.z <= g.height;
    }
    forall i | 1 <= i < |m.scene| ensures Built(m.scene[i]) && FitsCell(m.scene[i], FirstCell()) {
      assert m.scene[i] == g.added[i - 1];
    }
  }

  /**
   * Every cube of a generated scene can be drawn: it has stripes and bands,
   * its footprint is square (so the X-derived gap fits the Y faces too), and
   * the gap at each stripe position is wider than the two beams around it.
   */
  lemma SceneDrawable(rng: Stream)
    ensures AllPaintable(Generate(rng).scene)
  {
    var m := Generate(rng);
    forall i | 0 <= i < |m.scene| ensures Paintable(m.scene[i]) {
      var k := m.scene[i];
      if i == 0 {
        BasePaintable();
      } else {
        assert Built(k) && FitsCell(k, FirstCell());
        BuiltPaintable(k);
      }
    }
  }

  lemma BasePaintable()
    ensures Paintable(Base())
  {
    var k := Base();
    assert Gap(k) == 100.0 / 300.0;
    assert BandCount(k) == 2;
  }

  predicate AllPaintable(ks: seq<StripedCube>) {
    forall i :: 0 <= i < |ks| ==> Paintable(ks[i])
  }

  predicate Paintable(k: StripedCube) {
    && Drawable(k)
    && BandCount(k) >= 2
    && k.max.x - k.min.x == k.max.y - k.min.y
    && Gap(k) > 2.0 * BeamSize
  }

  lemma BuiltPaintable(k: StripedCube)
    requires Built(k) && FitsCell(k, FirstCell())
    ensures Paintable(k)
  {
    var w := k.max.x - k.min.x;
    var n := k.stripes as real;
    assert n <= 4.0 * w;
    assert Gap(k) * n == w;
    assert (Gap(k) - 0.25) * n >= 0.0;
  }
}

=== FILE: draws.dfy ===
/**
 * The random source. Go's generator is one shared stream seeded once; every
 * `rand.Float32()` and `rand.Intn(10)` call takes the next value from it.
 * Here the stream is an explicit function from positions to draws and the
 * caller threads a cursor through the computation.
 */
module Draws {

  /** One draw: a value in [0, 1), as `rand.Float32()` returns. */
  type Draw = u: real | 0.0 <= u < 1.0

  /** An endless, reproducible stream of draws (one per seed). */
  type Stream = nat -> Draw

  /** `rand.Intn(10)` taken from one draw of the stream. */
  function Intn10(u: Draw): (k: int)
    ensures 0 <= k < 10
    ensures k as real <= 10.0 * u < k as real + 1.0
  {
    (10.0 * u).Floor
  }
}

=== FILE: extension.dfy ===
/**
 * buildExtension: the recursive subdivision of a footprint into striped
 * cubes. The global `globalHeight` and the ambient random generator of the
 * Go program become an explicit height accumulator and an explicit draw
 * cursor, and the scene the cubes are added to becomes the returned list.
 */
module Extension {
  import opened Geometry
  import opened Draws

  /** No cell whose top reaches this height is subdivided. */
  const MaxHeight: real := 600.0

  /** A draw at or below this value slices a quadrant; above it builds. */
  const SliceThreshold: real := 0.5

  /**
   * A draw at or below this value continues a building upward. Go compares
   * against `float32(0.8)`, whose exact value is 13421773 / 2^24.
   */
  const ContinueThreshold: real := 13421773.0 / 16777216.0

  /** The cell handed to one call: a footprint and a vertical band [lo.z, hi.z]. */
  datatype Cell = Cell(lo: Vector, hi: Vector)

  function Width(c: Cell): real { c.hi.x - c.lo.x }
  function Depth(c: Cell): real { c.hi.y - c.lo.y }
  function Band(c: Cell): real { c.hi.z - c.lo.z }

  /** The guard at the top of each call. */
  predicate Expands(c: Cell) {
    c.hi.z < MaxHeight && Width(c) > 1.0
  }

  /** The stripe count shared by the four quadrants of an expanding cell: int(width / 2 * 4). */
  function StripeCount(c: Cell): (n: int)
    ensures Expands(c) ==> n >= 2
    ensures 0.0 <= Width(c) ==> n as real <= 2.0 * Width(c) < n as real + 1.0
  {
    Trunc(Width(c) / 2.0 * 4.0)
  }

  /** The four quadrants, named by compass corner; visited in the order Order lists. */
  datatype Quadrant = SouthWest | NorthEast | NorthWest | SouthEast

  const Order: seq<Quadrant> := [SouthWest, NorthEast, NorthWest, SouthEast]

  /** The quadrant `q` of cell `c`, carrying the same band as `c`. */
  function Quarter(c: Cell, q: Quadrant): (r: Cell)
    ensures Width(r) == Width(c) / 2.0 && Depth(r) == Depth(c) / 2.0
    ensures r.lo.z == c.lo.z && r.hi.z == c.hi.z
    ensures 0.0 <= Width(c) ==> c.lo.x <= r.lo.x && r.hi.x <= c.hi.x
    ensures 0.0 <= Depth(c) ==> c.lo.y <= r.lo.y && r.hi.y <= c.hi.y
    ensures q == SouthWest ==> r.lo.x == c.lo.x && r.lo.y == c.lo.y
    ensures q == NorthEast ==> r.hi.x == c.hi.x && r.hi.y == c.hi.y
    ensures q == NorthWest ==> r.lo.x == c.lo.x && r.hi.y == c.hi.y
    ensures q == SouthEast ==> r.hi.x == c.hi.x && r.lo.y == c.lo.y
  {
    var midX := (c.hi.x - c.lo.x) / 2.0 + c.lo.x;
    var midY := (c.hi.y - c.lo.y) / 2.0 + c.lo.y;
    match q
    case SouthWest => Cell(Vector(c.lo.x, c.lo.y, c.lo.z), Vector(midX, midY, c.hi.z))
    case NorthEast => Cell(Vector(midX, midY, c.lo.z), Vector(c.hi.x, c.hi.y, c.hi.z))
    case NorthWest => Cell(Vector(c.lo.x, midY, c.lo.z), Vector(midX, c.hi.y, c.hi.z))
    case SouthEast => Cell(Vector(midX, c.lo.y, c.lo.z), Vector(c.hi.x, midY, c.hi.z))
  }

  predicate InFootprint(c: Cell, x: real, y: real) {
    c.lo.x <= x <= c.hi.x && c.lo.y <= y <= c.hi.y
  }

  predicate InInterior(c: Cell, x: real, y: real) {
    c.lo.x < x < c.hi.x && c.lo.y < y < c.hi.y
  }

  /** The four quadrants tile the footprint: they cover it and their interiors are disjoint. */
  lemma QuartersTile(c: Cell, x: real, y: real)
    requires 0.0 <= Width(c) && 0.0 <= Depth(c)
    ensures InFootprint(c, x, y) <==> exists q :: InFootprint(Quarter(c, q), x, y)
    ensures forall q, q' :: q != q' && InInterior(Quarter(c, q), x, y) ==> !InInterior(Quarter(c, q'), x, y)
  {
    var midX := (c.hi.x - c.lo.x) / 2.0 + c.lo.x;
    var midY := (c.hi.y - c.lo.y) / 2.0 + c.lo.y;
    if InFootprint(c, x, y) {
      var q := if x <= midX then (if y <= midY then SouthWest else NorthWest)
               else (if y <= midY then SouthEast else NorthEast);
      assert InFootprint(Quarter(c, q), x, y);
    }
  }

  /** A whole number of levels in [2, 11]. */
  predicate IsStorey(h: real) {
    h == h.Floor as real && 2.0 <= h <= 11.0
  }

  /** The height a continuation adds, `2 + rand.Intn(10)`: a whole number of levels in [2, 11], growing with the draw. */
  function Rise(u: Draw): (h: real)
    ensures IsStorey(h)
    ensures 2.0 + 10.0 * u - 1.0 < h <= 2.0 + 10.0 * u
  {
    (2 + Intn10(u)) as real
  }

  /** The cell a build continues into: the same footprint, a band of height `h` on top of it. */
  function Raise(q: Cell, h: real): (r: Cell)
    ensures r.lo.z == q.hi.z && Band(r) == h
    ensures r.lo.x == q.lo.x && r.lo.y == q.lo.y && r.hi.x == q.hi.x && r.hi.y == q.hi.y
  {
    Cell(Vector(q.lo.x, q.lo.y, q.hi.z), Vector(q.hi.x, q.hi.y, q.hi.z + h))
  }

  function Pow2(n: nat): nat {
    if n == 0 then 1 else 2 * Pow2(n - 1)
  }

  /** The number of halvings that bring a width of at most `k` down to at most 1: the least n with k <= 2^n. */
  function Halvings(k: int): (n: nat)
    ensures k <= Pow2(n)
    ensures 1 < k ==> Pow2(n) < 2 * k
    decreases k
  {
    if k <= 1 then 0 else 1 + Halvings((k + 1) / 2)
  }

  /** The termination measure of a cell: the halvings left before its width is at most 1. */
  function Rank(c: Cell): nat {
    Halvings(Width(c).Floor + 1)
  }

  lemma FloorHalf(w: real)
    requires 0.0 <= w
    ensures (w / 2.0).Floor == w.Floor / 2
  {
    var f := w.Floor;
    var q := f / 2;
    assert f == 2 * q + f % 2;
    assert q as real <= w / 2.0 < q as real + 1.0;
  }

  /** A cell half as wide as an expanding cell has a smaller rank. */
  lemma RankDrops(c: Cell, sub: Cell)
    requires Width(c) > 1.0 && Width(sub) == Width(c) / 2.0
    ensures Rank(sub) < Rank(c)
  {
    FloorHalf(Width(c));
    var f := Width(c).Floor;
    assert f / 2 + 1 == (f + 2) / 2;
  }

  /**
   * What one call adds: the cubes in scene order, the cursor after its
   * draws, the new running maximum, and two tallies that account for the
   * draws: the cells split (those that passed the guard) and the
   * continuations taken.
   */
  datatype Growth = Growth(added: seq<StripedCube>, pos: nat, height: real, tally: Tally)

  /** The cells split and the continuations taken. */
  datatype Tally = Tally(splits: nat, rises: nat)

  /** The tallies of two runs in sequence. */
  function Sum(a: Tally, b: Tally): Tally {
    Tally(a.splits + b.splits, a.rises + b.rises)
  }

  /** The cube a build puts on quadrant `q` of cell `c`, with the stripe count shared by the four quadrants. */
  function QuadrantCube(c: Cell, q: Quadrant): (k: StripedCube)
    ensures k.min == Quarter(c, q).lo && k.max == Quarter(c, q).hi
    ensures k.stripes == StripeCount(c) && k.box == Box(k.min, k.max)
  {
    CreateStripedCube(Quarter(c, q).lo, Quarter(c, q).hi, StripeCount(c))
  }


  /** `top` is the maximum of `start` and the top of every cube in `cubes`. */
  predicate IsMaxTop(start: real, cubes: seq<StripedCube>, top: real) {
    && start <= top
    && (forall i :: 0 <= i < |cubes| ==> cubes[i].max.z <= top)
    && (top == start || exists i :: 0 <= i < |cubes| && cubes[i].max.z == top)
  }

  lemma MaxTopChain(h0: real, a: seq<StripedCube>, h1: real, b: seq<StripedCube>, h2: real)
    requires IsMaxTop(h0, a, h1) && IsMaxTop(h1, b, h2)
    ensures IsMaxTop(h0, a + b, h2)
  {
    if h2 != h0 {
      if h2 == h1 {
        var i :| 0 <= i < |a| && a[i].max.z == h1;
        assert (a + b)[i] == a[i];
      } else {
        var i :| 0 <= i < |b| && b[i].max.z == h2;
        assert (a + b)[|a| + i] == b[i];
      }
    }
  }

  /** Every cube the subdivider adds keeps these facts, whatever cell it came from. */
  predicate Built(k: StripedCube) {
    && k.box == Box(k.min, k.max)
    && k.max.z < MaxHeight
    && k.stripes >= 2
    && k.stripes == Trunc(4.0 * (k.max.x - k.min.x))
  }

  predicate AllBuilt(ks: seq<StripedCube>) {
    forall i :: 0 <= i < |ks| ==> Built(ks[i])
  }

  lemma BuiltConcat(a: seq<StripedCube>, b: seq<StripedCube>)
    requires AllBuilt(a) && AllBuilt(b)
    ensures AllBuilt(a + b)
  {
    forall i | 0 <= i < |a + b| ensures Built((a + b)[i]) {
      if i < |a| { assert (a + b)[i] == a[i]; } else { assert (a + b)[i] == b[i - |a|]; }
    }
  }

  /**
   * buildExtension(min, max) with the draws starting at `pos` and the running
   * maximum `height`. Every split cell takes one draw per quadrant, every
   * cube one more, and every continuation one more for its height.
   */
  function BuildExtension(rng: Stream, cell: Cell, pos: nat, height: real): (r: Growth)
    ensures !Expands(cell) ==> r == Growth([], pos, height, Tally(0, 0))
    ensures Expands(cell) ==> r.pos >= pos + 4
    ensures r.pos >= pos + 2 * |r.added|
    ensures Expands(cell) && rng(pos) > SliceThreshold ==> |r.added| >= 1 && r.added[0] == QuadrantCube(cell, SouthWest)
    ensures IsMaxTop(height, r.added, r.height)
    ensures AllBuilt(r.added)
    decreases Rank(cell), 1
  {
    if Expands(cell) then
      var g1 := VisitQuadrant(rng, cell, Order[0], pos, height);
      var g2 := VisitQuadrant(rng, cell, Order[1], g1.pos, g1.height);
      var g3 := VisitQuadrant(rng, cell, Order[2], g2.pos, g2.height);
      var g4 := VisitQuadrant(rng, cell, Order[3], g3.pos, g3.height);
      MaxTopChain(height, g1.added, g1.height, g2.added, g2.height);
      MaxTopChain(height, g1.added + g2.added, g2.height, g3.added, g3.height);
      MaxTopChain(height, g1.added + g2.added + g3.added, g3.height, g4.added, g4.height);
      BuiltConcat(g1.added, g2.added);
      BuiltConcat(g1.added + g2.added, g3.added);
      BuiltConcat(g1.added + g2.added + g3.added, g4.added);
      Growth(g1.added + g2.added + g3.added + g4.added, g4.pos, g4.height,
             Sum(Tally(1, 0), Sum(g1.tally, Sum(g2.tally, Sum(g3.tally, g4.tally)))))
    else
      Growth([], pos, height, Tally(0, 0))
  }

  /**
   * One quadrant of an expanding cell: one draw decides between slicing
   * (recurse on the quadrant) and building a cube on it; a build draws once
   * more to decide whether to continue upward, and a continuation draws its
   * extra height.
   */
  function VisitQuadrant(rng: Stream, cell: Cell, q: Quadrant, pos: nat, height: real): (r: Growth)
    requires Expands(cell)
    ensures r.pos >= pos + 1 && r.pos >= pos + 2 * |r.added|
    ensures rng(pos) > SliceThreshold ==> |r.added| >= 1 && r.added[0] == QuadrantCube(cell, q)
    ensures IsMaxTop(height, r.added, r.height)
    ensures AllBuilt(r.added)
    decreases Rank(cell), 0
  {
    var quarter := Quarter(cell, q);
    RankDrops(cell, quarter);
    if rng(pos) <= SliceThreshold then
      BuildExtension(rng, quarter, pos + 1, height)
    else
      var cube := QuadrantCube(cell, q);
      var h := if quarter.hi.z > height then quarter.hi.z else height;
      assert IsMaxTop(height, [cube], h) by { assert [cube][0] == cube; }
      if rng(pos + 1) <= ContinueThreshold then
        var extra := Rise(rng(pos + 2));
        RankDrops(cell, Raise(quarter, extra));
        var g := BuildExtension(rng, Raise(quarter, extra), pos + 3, h);
        MaxTopChain(height, [cube], h, g.added, g.height);
        BuiltConcat([cube], g.added);
        Growth([cube] + g.added, g.pos, g.height, Sum(g.tally, Tally(0, 1)))
      else
        Growth([cube], pos + 2, h, Tally(0, 0))
  }

  /** The cell's three extents are positive. */
  predicate ProperCell(c: Cell) {
    c.lo.x < c.hi.x && c.lo.y < c.hi.y && c.lo.z < c.hi.z
  }

  /**
   * Where a cube generated inside cell `c` may lie: a proper box within the
   * footprint at or above the band's foot, reaching at least the band's top,
   * at most half as wide as the cell, square when the cell is, and either as
   * tall as the band or a whole number of levels in [2, 11].
   */
  predicate FitsCell(k: StripedCube, c: Cell) {
    && Proper(k)
    && c.lo.x <= k.min.x && k.max.x <= c.hi.x
    && c.lo.y <= k.min.y && k.max.y <= c.hi.y
    && c.lo.z <= k.min.z && c.hi.z <= k.max.z
    && 2.0 * (k.max.x - k.min.x) <= Width(c)
    && (Width(c) == Depth(c) ==> k.max.x - k.min.x == k.max.y - k.min.y)
    && (k.max.z - k.min.z == Band(c) || IsStorey(k.max.z - k.min.z))
  }

  predicate AllFit(ks: seq<StripedCube>, c: Cell) {
    forall i :: 0 <= i < |ks| ==> FitsCell(ks[i], c)
  }

  lemma AllFitConcat(a: seq<StripedCube>, b: seq<StripedCube>, c: Cell)
    requires AllFit(a, c) && AllFit(b, c)
    ensures AllFit(a + b, c)
  {
    forall i | 0 <= i < |a + b|
      ensures FitsCell((a + b)[i], c)
    {
      if i < |a| { assert (a + b)[i] == a[i]; } else { assert (a + b)[i] == b[i - |a|]; }
    }
  }

  /** A cube that fits a quadrant of an expanding cell, or the cell raised above it, fits the cell. */
  lemma FitsWiden(ks: seq<StripedCube>, cell: Cell, sub: Cell)
    requires ProperCell(cell) && AllFit(ks, sub)
    requires Width(sub) <= Width(cell) && (Width(sub) == Depth(sub) <==> Width(cell) == Depth(cell))
    requires cell.lo.x <= sub.lo.x && sub.hi.x <= cell.hi.x
    requires cell.lo.y <= sub.lo.y && sub.hi.y <= cell.hi.y
    requires cell.lo.z <= sub.lo.z && cell.hi.z <= sub.hi.z
    requires Band(sub) == Band(cell) || IsStorey(Band(sub))
    ensures AllFit(ks, cell)
  {
  }

  /** Every cube that buildExtension adds fits the cell it was called on. */
  lemma {:induction false} ExtensionFits(rng: Stream, cell: Cell, pos: nat, height: real)
    requires ProperCell(cell)
    ensures AllFit(BuildExtension(rng, cell, pos, height).added, cell)
    decreases Rank(cell), 2
  {
    if Expands(cell) {
      var g1 := VisitQuadrant(rng, cell, Order[0], pos, height);
      var g2 := VisitQuadrant(rng, cell, Order[1], g1.pos, g1.height);
      var g3 := VisitQuadrant(rng, cell, Order[2], g2.pos, g2.height);
      var g4 := VisitQuadrant(rng, cell, Order[3], g3.pos, g3.height);
      QuadrantFits(rng, cell, Order[0], pos, height);
      QuadrantFits(rng, cell, Order[1], g1.pos, g1.height);
      QuadrantFits(rng, cell, Order[2], g2.pos, g2.height);
      QuadrantFits(rng, cell, Order[3], g3.pos, g3.height);
      AllFitConcat(g1.added, g2.added, cell);
      AllFitConcat(g1.added + g2.added, g3.added, cell);
      AllFitConcat(g1.added + g2.added + g3.added, g4.added, cell);
    }
  }

  /** Every cube that one quadrant's visit adds fits the expanding cell. */
  lemma {:induction false} QuadrantFits(rng: Stream, cell: Cell, q: Quadrant, pos: nat, height: real)
    requires Expands(cell) && ProperCell(cell)
    ensures AllFit(VisitQuadrant(rng, cell, q, pos, height).added, cell)
    decreases Rank(cell), 1
  {
    if rng(pos) <= SliceThreshold {
      SliceFits(rng, cell, q, pos, height);
    } else if rng(pos + 1) <= ContinueThreshold {
      ContinueFits(rng, cell, q, pos, height);
    } else {
      var quarter := Quarter(cell, q);
      var cube := QuadrantCube(cell, q);
      assert VisitQuadrant(rng, cell, q, pos, height).added == [cube];
      assert FitsCell(cube, cell);
    }
  }

  /** A slice adds only cubes that fit its quadrant, and so fit the cell. */
  lemma {:induction false} SliceFits(rng: Stream, cell: Cell, q: Quadrant, pos: nat, height: real)
    requires Expands(cell) && ProperCell(cell) && rng(pos) <= SliceThreshold
    ensures AllFit(VisitQuadrant(rng, cell, q, pos, height).added, cell)
    decreases Rank(cell), 0
  {
    var quarter := Quarter(cell, q);
    RankDrops(cell, quarter);
    ExtensionFits(rng, quarter, pos + 1, height);
    FitsWiden(BuildExtension(rng, quarter, pos + 1, height).added, cell, quarter);
  }

  /** A build that continues adds the quadrant's cube, then cubes that fit the raised cell, and so fit the cell. */
  lemma {:induction false} ContinueFits(rng: Stream, cell: Cell, q: Quadrant, pos: nat, height: real)
    requires Expands(cell) && ProperCell(cell) && rng(pos) > SliceThreshold && rng(pos + 1) <= ContinueThreshold
    ensures AllFit(VisitQuadrant(rng, cell, q, pos, height).added, cell)
    decreases Rank(cell), 0
  {
    var quarter := Quarter(cell, q);
    var cube := QuadrantCube(cell, q);
    var h := if quarter.hi.z > height then quarter.hi.z else height;
    assert AllFit([cube], cell);
    var up := Raise(quarter, Rise(rng(pos + 2)));
    RankDrops(cell, up);
    ExtensionFits(rng, up, pos + 3, h);
    var g := BuildExtension(rng, up, pos + 3, h);
    FitsWiden(g.added, cell, up);
    AllFitConcat([cube], g.added, cell);
  }

  /** Two streams agree on the draws from `pos` up to (not including) `end`. */
  predicate SameDraws(rng: Stream, rng': Stream, pos: nat, end: nat) {
    forall i :: pos <= i < end ==> rng(i) == rng'(i)
  }

  /**
   * buildExtension is unaffected by draws outside [pos, r.pos): a stream that
   * agrees with `rng` between the starting cursor and the returned one gives
   * the same cubes, cursor and height.
   */
  lemma {:induction false} ExtensionReads(rng: Stream, rng': Stream, cell: Cell, pos: nat, height: real)
    requires SameDraws(rng, rng', pos, BuildExtension(rng, cell, pos, height).pos)
    ensures BuildExtension(rng', cell, pos, height) == BuildExtension(rng, cell, pos, height)
    decreases Rank(cell), 2
  {
    if Expands(cell) {
      var g1 := VisitQuadrant(rng, cell, Order[0], pos, height);
      var g2 := VisitQuadrant(rng, cell, Order[1], g1.pos, g1.height);
      var g3 := VisitQuadrant(rng, cell, Order[2], g2.pos, g2.height);
      var g4 := VisitQuadrant(rng, cell, Order[3], g3.pos, g3.height);
      assert g4.pos == BuildExtension(rng, cell, pos, height).pos;
      QuadrantReads(rng, rng', cell, Order[0], pos, height);
      QuadrantReads(rng, rng', cell, Order[1], g1.pos, g1.height);
      QuadrantReads(rng, rng', cell, Order[2], g2.pos, g2.height);
      QuadrantReads(rng, rng', cell, Order[3], g3.pos, g3.height);
    }
  }

  /** One quadrant's visit is unaffected by draws outside [pos, r.pos). */
  lemma {:induction false} QuadrantReads(rng: Stream, rng': Stream, cell: Cell, q: Quadrant, pos: nat, height: real)
    requires Expands(cell)
    requires SameDraws(rng, rng', pos, VisitQuadrant(rng, cell, q, pos, height).pos)
    ensures VisitQuadrant(rng', cell, q, pos, height) == VisitQuadrant(rng, cell, q, pos, height)
    decreases Rank(cell), 1
  {
    assert rng(pos) == rng'(pos);
    if rng(pos) <= SliceThreshold {
      SliceReads(rng, rng', cell, q, pos, pos + 1, height);
    } else {
      assert rng(pos + 1) == rng'(pos + 1);
      if rng(pos + 1) <= ContinueThreshold {
        assert rng(pos + 2) == rng'(pos + 2);
        ContinueReads(rng, rng', cell, q, pos, pos + 3, height);
      }
    }
  }

  /** A slice is unaffected by draws other than its decision draw at `pos` and the range the call on the quadrant from `next` depends on. */
  lemma {:induction false} SliceReads(rng: Stream, rng': Stream, cell: Cell, q: Quadrant, pos: nat, next: nat, height: real)
    requires Expands(cell) && next == pos + 1
    requires rng(pos) <= SliceThreshold && rng'(pos) == rng(pos)
    requires SameDraws(rng, rng', pos, VisitQuadrant(rng, cell, q, pos, height).pos)
    ensures VisitQuadrant(rng', cell, q, pos, height) == VisitQuadrant(rng, cell, q, pos, height)
    decreases Rank(cell), 0
  {
    var quarter := Quarter(cell, q);
    RankDrops(cell, quarter);
    assert VisitQuadrant(rng, cell, q, pos, height) == BuildExtension(rng, quarter, next, height);
    ExtensionReads(rng, rng', quarter, next, height);
  }

  /** A continuation is unaffected by draws other than its three from `pos` and the range the call on the raised cell from `next` depends on. */
  lemma {:induction false} ContinueReads(rng: Stream, rng': Stream, cell: Cell, q: Quadrant, pos: nat, next: nat, height: real)
    requires Expands(cell) && next == pos + 3
    requires rng(pos) > SliceThreshold && rng(pos + 1) <= ContinueThreshold
    requires rng'(pos) == rng(pos) && rng'(pos + 1) == rng(pos + 1) && rng'(pos + 2) == rng(pos + 2)
    requires SameDraws(rng, rng', pos, VisitQuadrant(rng, cell, q, pos, height).pos)
    ensures VisitQuadrant(rng', cell, q, pos, height) == VisitQuadrant(rng, cell, q, pos, height)
    decreases Rank(cell), 0
  {
    var quarter := Quarter(cell, q);
    var h := if quarter.hi.z > height then quarter.hi.z else height;
    var up := Raise(quarter, Rise(rng(pos + 2)));
    RankDrops(cell, up);
    ContinueStep(rng, cell, q, pos, height);
    ContinueStep(rng', cell, q, pos, height);
    ExtensionReads(rng, rng', up, next, h);
  }

  /**
   * The exact draw count: each split cell takes four decision draws, each
   * cube one continue draw, each continuation one height draw. A cell is
   * split exactly when it passes the guard, at most four cubes stand on the
   * quadrants of each split cell, and each continuation follows a cube.
   */
  lemma {:induction false} ExtensionCount(rng: Stream, cell: Cell, pos: nat, height: real)
    ensures var r := BuildExtension(rng, cell, pos, height);
      && r.pos == pos + 4 * r.tally.splits + |r.added| + r.tally.rises
      && r.tally.rises <= |r.added| <= 4 * r.tally.splits
      && (Expands(cell) <==> r.tally.splits >= 1)
    decreases Rank(cell), 2
  {
    if Expands(cell) {
      var g1 := VisitQuadrant(rng, cell, Order[0], pos, height);
      var g2 := VisitQuadrant(rng, cell, Order[1], g1.pos, g1.height);
      var g3 := VisitQuadrant(rng, cell, Order[2], g2.pos, g2.height);
      var g4 := VisitQuadrant(rng, cell, Order[3], g3.pos, g3.height);
      QuadrantCount(rng, cell, Order[0], pos, height);
      QuadrantCount(rng, cell, Order[1], g1.pos, g1.height);
      QuadrantCount(rng, cell, Order[2], g2.pos, g2.height);
      QuadrantCount(rng, cell, Order[3], g3.pos, g3.height);
      var r := BuildExtension(rng, cell, pos, height);
      assert r.tally.splits == 1 + g1.tally.splits + g2.tally.splits + g3.tally.splits + g4.tally.splits;
      assert r.tally.rises == g1.tally.rises + g2.tally.rises + g3.tally.rises + g4.tally.rises;
      assert |r.added| == |g1.added| + |g2.added| + |g3.added| + |g4.added|;
    }
  }

  /** One quadrant takes its decision draw and then the draws its slice, cube and continuation account for. */
  lemma {:induction false} QuadrantCount(rng: Stream, cell: Cell, q: Quadrant, pos: nat, height: real)
    requires Expands(cell)
    ensures var r := VisitQuadrant(rng, cell, q, pos, height);
      && r.pos == pos + 1 + 4 * r.tally.splits + |r.added| + r.tally.rises
      && r.tally.rises <= |r.added| <= 1 + 4 * r.tally.splits
    decreases Rank(cell), 1
  {
    if rng(pos) <= SliceThreshold {
      SliceCount(rng, cell, q, pos, pos + 1, height);
    } else if rng(pos + 1) <= ContinueThreshold {
      ContinueCount(rng, cell, q, pos, pos + 3, height);
    } else {
      StopStep(rng, cell, q, pos, height);
    }
  }

  /** A slice takes its decision draw at `pos` and then the draws of the call on the quadrant from `next`. */
  lemma {:induction false} SliceCount(rng: Stream, cell: Cell, q: Quadrant, pos: nat, next: nat, height: real)
    requires Expands(cell) && next == pos + 1 && rng(pos) <= SliceThreshold
    ensures var r := VisitQuadrant(rng, cell, q, pos, height);
      && r.pos == pos + 1 + 4 * r.tally.splits + |r.added| + r.tally.rises
      && r.tally.rises <= |r.added| <= 1 + 4 * r.tally.splits
    decreases Rank(cell), 0
  {
    var quarter := Quarter(cell, q);
    RankDrops(cell, quarter);
    SliceStep(rng, cell, q, pos, height);
    ExtensionCount(rng, quarter, next, height);
  }

  /** A continuation takes its three draws from `pos`, one of them for its cube, and then the draws of the call on the raised cell from `next`. */
  lemma {:induction false} ContinueCount(rng: Stream, cell: Cell, q: Quadrant, pos: nat, next: nat, height: real)
    requires Expands(cell) && next == pos + 3
    requires rng(pos) > SliceThreshold && rng(pos + 1) <= ContinueThreshold
    ensures var r := VisitQuadrant(rng, cell, q, pos, height);
      && r.pos == pos + 1 + 4 * r.tally.splits + |r.added| + r.tally.rises
      && r.tally.rises <= |r.added| <= 1 + 4 * r.tally.splits
    decreases Rank(cell), 0
  {
    var up := Raise(Quarter(cell, q), Rise(rng(pos + 2)));
    RankDrops(cell, up);
    ContinueStep(rng, cell, q, pos, height);
    ExtensionCount(rng, up, next, if cell.hi.z > height then cell.hi.z else height);
  }

  /** A slice is exactly the call on the quadrant with the draws after its decision draw. */
  lemma SliceStep(rng: Stream, cell: Cell, q: Quadrant, pos: nat, height: real)
    requires Expands(cell) && rng(pos) <= SliceThreshold
    ensures VisitQuadrant(rng, cell, q, pos, height) == BuildExtension(rng, Quarter(cell, q), pos + 1, height)
  {
  }

  /** A build that stops adds exactly the quadrant's cube and takes exactly two draws. */
  lemma StopStep(rng: Stream, cell: Cell, q: Quadrant, pos: nat, height: real)
    requires Expands(cell) && rng(pos) > SliceThreshold && rng(pos + 1) > ContinueThreshold
    ensures VisitQuadrant(rng, cell, q, pos, height) == Growth([QuadrantCube(cell, q)], pos + 2, if cell.hi.z > height then cell.hi.z else height, Tally(0, 0))
  {
  }

  /** A continuing build is the quadrant's cube followed by the call on the quadrant raised by Rise of the third draw. */
  lemma ContinueStep(rng: Stream, cell: Cell, q: Quadrant, pos: nat, height: real)
    requires Expands(cell)
    requires rng(pos) > SliceThreshold && rng(pos + 1) <= ContinueThreshold
    ensures var g := BuildExtension(rng, Raise(Quarter(cell, q), Rise(rng(pos + 2))), pos + 3, if cell.hi.z > height then cell.hi.z else height);
      VisitQuadrant(rng, cell, q, pos, height) == Growth([QuadrantCube(cell, q)] + g.added, g.pos, g.height, Sum(g.tally, Tally(0, 1)))
  {
    var quarter := Quarter(cell, q);
    assert quarter.hi.z == cell.hi.z;
    var h := if cell.hi.z > height then cell.hi.z else height;
    var g := BuildExtension(rng, Raise(quarter, Rise(rng(pos + 2))), pos + 3, h);
    var r := VisitQuadrant(rng, cell, q, pos, height);
    assert r.tally == Sum(g.tally, Tally(0, 1));
  }

  lemma SingletonsJoin(a: StripedCube, b: StripedCube, c: StripedCube, d: StripedCube)
    ensures [a] + [b] + [c] + [d] == [a, b, c, d]
  {
  }

  /**
   * When no quadrant is sliced and no build continues, a passing cell gets
   * one cube on each quadrant in the visiting order south-west, north-east,
   * north-west, south-east, from exactly eight draws, and the height rises to
   * the band's top.
   */
  lemma {:induction false} FourBuilds(rng: Stream, cell: Cell, pos: nat, height: real)
    requires Expands(cell)
    requires forall i :: pos <= i < pos + 8 ==> rng(i) > ContinueThreshold
    ensures var r := BuildExtension(rng, cell, pos, height);
      && r.added == [QuadrantCube(cell, SouthWest), QuadrantCube(cell, NorthEast), QuadrantCube(cell, NorthWest), QuadrantCube(cell, SouthEast)]
      && r.pos == pos + 8
      && r.height == if cell.hi.z > height then cell.hi.z else height
  {
    var h := if cell.hi.z > height then cell.hi.z else height;
    assert rng(pos) > ContinueThreshold && rng(pos + 1) > ContinueThreshold;
    StopStep(rng, cell, SouthWest, pos, height);
    var g1 := VisitQuadrant(rng, cell, Order[0], pos, height);
    assert g1 == Growth([QuadrantCube(cell, SouthWest)], pos + 2, h, Tally(0, 0));
    assert rng(pos + 2) > ContinueThreshold && rng(pos + 3) > ContinueThreshold;
    StopStep(rng, cell, NorthEast, pos + 2, h);
    var g2 := VisitQuadrant(rng, cell, Order[1], g1.pos, g1.height);
    assert g2 == Growth([QuadrantCube(cell, NorthEast)], pos + 4, h, Tally(0, 0));
    assert rng(pos + 4) > ContinueThreshold && rng(pos + 5) > ContinueThreshold;
    StopStep(rng, cell, NorthWest, pos + 4, h);
    var g3 := VisitQuadrant(rng, cell, Order[2], g2.pos, g2.height);
    assert g3 == Growth([QuadrantCube(cell, NorthWest)], pos + 6, h, Tally(0, 0));
    assert rng(pos + 6) > ContinueThreshold && rng(pos + 7) > ContinueThreshold;
    StopStep(rng, cell, SouthEast, pos + 6, h);
    var g4 := VisitQuadrant(rng, cell, Order[3], g3.pos, g3.height);
    assert g4 == Growth([QuadrantCube(cell, SouthEast)], pos + 8, h, Tally(0, 0));
    var r := BuildExtension(rng, cell, pos, height);
    assert r.added == g1.added + g2.added + g3.added + g4.added;
    SingletonsJoin(QuadrantCube(cell, SouthWest), QuadrantCube(cell, NorthEast), QuadrantCube(cell, NorthWest), QuadrantCube(cell, SouthEast));
  }
}

=== FILE: geometry.dfy ===
/**
 * Geometry shared by the subdivider and the wireframe generator: points,
 * boxes and the striped cube that the scene collects. Go's float64 becomes
 * Dafny's exact `real`.
 */
module Geometry {

  /** A point in space (ln.Vector). */
  datatype Vector = Vector(x: real, y: real, z: real)

  /** An axis-aligned bounding box (ln.Box). */
  datatype Box = Box(min: Vector, max: Vector)

  /**
   * A StripedCube: the embedded ln.Cube (its two corners and its bounding
   * box) with its fields promoted as Go does, plus the number of stripes
   * drawn on each face.
   */
  datatype StripedCube = StripedCube(min: Vector, max: Vector, box: Box, stripes: int)

  /** A box is proper when max strictly exceeds min on every axis. */
  predicate Proper(c: StripedCube) {
    c.min.x < c.max.x && c.min.y < c.max.y && c.min.z < c.max.z
  }

  /** createStripedCube: the corners are stored unchanged and the bounding box is made of them. */
  function CreateStripedCube(min: Vector, max: Vector, stripes: int): (c: StripedCube)
    ensures c.min == min && c.max == max && c.stripes == stripes
    ensures c.box.min == c.min && c.box.max == c.max
  {
    StripedCube(min, max, Box(min, max), stripes)
  }

  /** Go's `int(x)` on a float64: truncation toward zero. */
  function Trunc(x: real): (n: int)
    ensures 0.0 <= x ==> 0 <= n && n as real <= x < n as real + 1.0
    ensures x <= 0.0 ==> n <= 0 && n as real - 1.0 < x <= n as real
  {
    if x >= 0.0 then x.Floor else -((-x).Floor)
  }
}

=== FILE: wireframe.dfy ===
/**
 * StripedCube.Paths: the line segments that draw one striped cube. Vertical
 * mullions stand at every stripe position of the four side faces (doubled
 * into a beam away from the corners); horizontal bands run round the cube
 * every half unit of height, solid at the foot and the top and perforated at
 * each stripe position in between.
 */
module Wireframe {
  import opened Geometry

  /** A two-point ln.Path. */
  datatype Segment = Segment(a: Vector, b: Vector)

  /** Half the width of an inner mullion: its two lines stand this far either side of the stripe position. */
  const BeamSize: real := 0.03

  /** The number of horizontal bands above the foot: int((z2 - z1) / 2 * 4). */
  function BandCount(c: StripedCube): (n: int)
    ensures c.min.z <= c.max.z ==> 0 <= n && n as real <= 2.0 * (c.max.z - c.min.z) < n as real + 1.0
    ensures c.max.z <= c.min.z ==> n <= 0
  {
    Trunc((c.max.z - c.min.z) / 2.0 * 4.0)
  }

  /** The cube can be drawn: at least one stripe and one band, so no division by zero. */
  predicate Drawable(c: StripedCube) {
    c.stripes >= 1 && BandCount(c) >= 1
  }

  /** Position `i` of `n` equal steps from `lo` to `hi`: lo + (hi - lo) * (i / n). */
  function Step(lo: real, hi: real, i: int, n: int): (r: real)
    requires n != 0
    ensures n as real * (r - lo) == i as real * (hi - lo)
  {
    var f := i as real / n as real;
    assert n as real * ((hi - lo) * f) == (hi - lo) * (n as real * f) == i as real * (hi - lo);
    lo + (hi - lo) * f
  }

  /** Scaling a non-negative length by a fraction in [0, 1] stays within [0, length]. */
  lemma StepWithin(lo: real, hi: real, i: int, n: int)
    requires lo <= hi && 0 <= i <= n && n != 0
    ensures lo <= Step(lo, hi, i, n) <= hi
    ensures i == 0 ==> Step(lo, hi, i, n) == lo
    ensures i == n ==> Step(lo, hi, i, n) == hi
  {
    var f := i as real / n as real;
    assert 0.0 <= f <= 1.0;
    assert (hi - lo) * f <= (hi - lo) * 1.0;
    assert i == n ==> f == 1.0;
  }

  // ---------------------------------------------------------------- shape

  /** A vertical segment of the cube: constant (x, y), running from the foot to the top. */
  predicate Upright(s: Segment, c: StripedCube) {
    s.a.x == s.b.x && s.a.y == s.b.y && s.a.z == c.min.z && s.b.z == c.max.z
  }

  /** The point lies in the plane of one of the four side faces. */
  predicate OnFacePlane(p: Vector, c: StripedCube) {
    p.x == c.min.x || p.x == c.max.x || p.y == c.min.y || p.y == c.max.y
  }

  /** A horizontal segment at height `z` running along a side face, parallel to an axis. */
  predicate Level(s: Segment, c: StripedCube, z: real) {
    && s.a.z == z && s.b.z == z
    && ((s.a.x == s.b.x && (s.a.x == c.min.x || s.a.x == c.max.x))
        || (s.a.y == s.b.y && (s.a.y == c.min.y || s.a.y == c.max.y)))
  }

  predicate AllUpright(ss: seq<Segment>, c: StripedCube) {
    forall j :: 0 <= j < |ss| ==> Upright(ss[j], c) && OnFacePlane(ss[j].a, c)
  }

  predicate AllLevel(ss: seq<Segment>, c: StripedCube, z: real) {
    forall j :: 0 <= j < |ss| ==> Level(ss[j], c, z)
  }

  // ---------------------------------------------------------- vertical

  function Post(c: StripedCube, x: real, y: real): Segment {
    Segment(Vector(x, y, c.min.z), Vector(x, y, c.max.z))
  }

  /** Some segment of `ss` stands at (x, y). */
  predicate HasPost(ss: seq<Segment>, x: real, y: real) {
    exists j :: 0 <= j < |ss| && ss[j].a.x == x && ss[j].a.y == y
  }

  /** Each segment of `ss` is a post of `ss`. */
  lemma PostsStand(ss: seq<Segment>)
    ensures forall j :: 0 <= j < |ss| ==> HasPost(ss, ss[j].a.x, ss[j].a.y)
  {
  }

  /**
   * The mullions at stripe position `i`: at the two ends one line on each
   * face, in between two lines BeamSize either side of the position. Every
   * segment stands at one of those places and every place has a segment.
   */
  function Mullions(c: StripedCube, i: int): (ss: seq<Segment>)
    requires c.stripes >= 1
    ensures |ss| == if i == 0 || i == c.stripes then 4 else 8
    ensures AllUpright(ss, c)
    ensures forall j :: 0 <= j < |ss| ==>
      var x := Step(c.min.x, c.max.x, i, c.stripes);
      var y := Step(c.min.y, c.max.y, i, c.stripes);
      var off := if i == 0 || i == c.stripes then 0.0 else BeamSize;
      ((ss[j].a.y == c.min.y || ss[j].a.y == c.max.y) && (ss[j].a.x == x - off || ss[j].a.x == x + off))
      || ((ss[j].a.x == c.min.x || ss[j].a.x == c.max.x) && (ss[j].a.y == y - off || ss[j].a.y == y + off))
  {
    var x := Step(c.min.x, c.max.x, i, c.stripes);
    var y := Step(c.min.y, c.max.y, i, c.stripes);
    var (x1, y1, x2, y2) := (c.min.x, c.min.y, c.max.x, c.max.y);
    if i == 0 || i == c.stripes then
      [Post(c, x, y1), Post(c, x, y2), Post(c, x1, y), Post(c, x2, y)]
    else
      [Post(c, x - BeamSize, y1), Post(c, x + BeamSize, y1),
       Post(c, x - BeamSize, y2), Post(c, x + BeamSize, y2),
       Post(c, x1, y - BeamSize), Post(c, x1, y + BeamSize),
       Post(c, x2, y - BeamSize), Post(c, x2, y + BeamSize)]
  }

  /**
   * Every place Mullions allows is taken: at the ends one post on each face
   * at the stripe position, in between a post BeamSize either side of it on
   * each of the four faces.
   */
  lemma MullionPosts(c: StripedCube, i: int)
    requires c.stripes >= 1
    ensures var ss := Mullions(c, i);
      var x := Step(c.min.x, c.max.x, i, c.stripes);
      var y := Step(c.min.y, c.max.y, i, c.stripes);
      var off := if i == 0 || i == c.stripes then 0.0 else BeamSize;
      && HasPost(ss, x - off, c.min.y) && HasPost(ss, x + off, c.min.y)
      && HasPost(ss, x - off, c.max.y) && HasPost(ss, x + off, c.max.y)
      && HasPost(ss, c.min.x, y - off) && HasPost(ss, c.min.x, y + off)
      && HasPost(ss, c.max.x, y - off) && HasPost(ss, c.max.x, y + off)
  {
    var ss := Mullions(c, i);
    PostsStand(ss);
    if i == 0 || i == c.stripes {
      assert ss[0].a.y == c.min.y && ss[1].a.y == c.max.y && ss[2].a.x == c.min.x && ss[3].a.x == c.max.x;
    } else {
      assert ss[0].a.y == c.min.y && ss[2].a.y == c.max.y && ss[4].a.x == c.min.x && ss[6].a.x == c.max.x;
      assert ss[1].a.y == c.min.y && ss[3].a.y == c.max.y && ss[5].a.x == c.min.x && ss[7].a.x == c.max.x;
    }
  }

  /** The mullions of stripe positions 0 .. k-1, in loop order. */
  function MullionsBefore(c: StripedCube, k: nat): (ss: seq<Segment>)
    requires c.stripes >= 1 && k <= c.stripes + 1
    ensures |ss| == if k == 0 then 0 else if k <= c.stripes then 8 * k - 4 else 8 * c.stripes
    ensures AllUpright(ss, c)
  {
    if k == 0 then [] else MullionsBefore(c, k - 1) + Mullions(c, k - 1)
  }

  lemma PrefixSlice(prev: seq<Segment>, last: seq<Segment>, lo: int, hi: int)
    requires 0 <= lo <= hi <= |prev|
    ensures (prev + last)[lo .. hi] == prev[lo .. hi]
  {
  }

  lemma SuffixSlice(prev: seq<Segment>, last: seq<Segment>, lo: int, hi: int)
    requires 0 <= lo <= hi <= |last|
    ensures (prev + last)[|prev| + lo .. |prev| + hi] == last[lo .. hi]
  {
  }

  lemma LastSlice(prev: seq<Segment>, last: seq<Segment>)
    ensures (prev + last)[|prev| .. |prev| + |last|] == last
  {
  }

  /** The mullions of the first i positions are a prefix of those of the first k. */
  lemma {:induction false} MullionsPrefix(c: StripedCube, i: nat, k: nat)
    requires c.stripes >= 1 && i <= k <= c.stripes + 1
    ensures |MullionsBefore(c, i)| <= |MullionsBefore(c, k)|
    ensures MullionsBefore(c, k)[..|MullionsBefore(c, i)|] == MullionsBefore(c, i)
  {
    if i < k {
      var prev := MullionsBefore(c, k - 1);
      MullionsPrefix(c, i, k - 1);
      PrefixSlice(prev, Mullions(c, k - 1), 0, |MullionsBefore(c, i)|);
    }
  }

  /**
   * The mullions of positions 0 .. k-1 are, block by block, the mullions of
   * each position in order: position i's block starts after the segments of
   * the positions before it.
   */
  lemma MullionBlock(c: StripedCube, k: nat, i: nat)
    requires c.stripes >= 1 && i < k <= c.stripes + 1
    ensures |MullionsBefore(c, i)| <= |MullionsBefore(c, i + 1)| <= |MullionsBefore(c, k)|
    ensures MullionsBefore(c, k)[|MullionsBefore(c, i)| .. |MullionsBefore(c, i + 1)|] == Mullions(c, i)
  {
    var (before, upto) := (MullionsBefore(c, i), MullionsBefore(c, i + 1));
    MullionsPrefix(c, i + 1, k);
    LastSlice(before, Mullions(c, i));
    assert MullionsBefore(c, k)[|before| .. |upto|] == upto[|before| ..];
  }

  // -------------------------------------------------------- horizontal

  /** The height of band `i` of `nb`: z1 + (z2 - z1) * (i / nb). */
  function BandHeight(c: StripedCube, i: int, nb: int): real
    requires nb != 0
  {
    Step(c.min.z, c.max.z, i, nb)
  }

  /** The length left open at each stripe position of a perforated band: the X width over the stripe count. */
  function Gap(c: StripedCube): (g: real)
    requires c.stripes != 0
    ensures g * c.stripes as real == c.max.x - c.min.x
  {
    (c.max.x - c.min.x) / c.stripes as real
  }

  function Flat(x1: real, y1: real, x2: real, y2: real, z: real): Segment {
    Segment(Vector(x1, y1, z), Vector(x2, y2, z))
  }

  /** The closed rectangle round the cube at height `z`. */
  function Outline(c: StripedCube, z: real): (ss: seq<Segment>)
    ensures |ss| == 4 && AllLevel(ss, c, z)
    ensures forall j :: 0 <= j < 4 ==> ss[j].a.x == c.min.x || ss[j].a.y == c.min.y
    ensures forall j :: 0 <= j < 4 ==> ss[j].b.x == c.max.x || ss[j].b.y == c.max.y
  {
    var (x1, y1, x2, y2) := (c.min.x, c.min.y, c.max.x, c.max.y);
    [Flat(x1, y1, x1, y2, z), Flat(x2, y1, x2, y2, z), Flat(x1, y1, x2, y1, z), Flat(x1, y2, x2, y2, z)]
  }

  /** Some segment of `ss` is exactly `s`. */
  predicate HasSegment(ss: seq<Segment>, s: Segment) {
    exists j :: 0 <= j < |ss| && ss[j] == s
  }

  /** The outline draws all four sides of the footprint: west, east, south and north. */
  lemma OutlineSides(c: StripedCube, z: real)
    ensures var (ss, x1, y1, x2, y2) := (Outline(c, z), c.min.x, c.min.y, c.max.x, c.max.y);
      && HasSegment(ss, Flat(x1, y1, x1, y2, z)) && HasSegment(ss, Flat(x2, y1, x2, y2, z))
      && HasSegment(ss, Flat(x1, y1, x2, y1, z)) && HasSegment(ss, Flat(x1, y2, x2, y2, z))
  {
    var ss := Outline(c, z);
    assert ss[0] == Flat(c.min.x, c.min.y, c.min.x, c.max.y, z);
    assert ss[1] == Flat(c.max.x, c.min.y, c.max.x, c.max.y, z);
    assert ss[2] == Flat(c.min.x, c.min.y, c.max.x, c.min.y, z);
    assert ss[3] == Flat(c.min.x, c.max.y, c.max.x, c.max.y, z);
  }

  /** The pieces between stripe positions 1 .. k along the face x = x0, running in y. */
  function PiecesAlongY(c: StripedCube, x0: real, z: real, k: nat): (ss: seq<Segment>)
    requires c.stripes >= 1 && (x0 == c.min.x || x0 == c.max.x)
    ensures |ss| == k && AllLevel(ss, c, z)
  {
    if k == 0 then []
    else
      var y := Step(c.min.y, c.max.y, k, c.stripes);
      PiecesAlongY(c, x0, z, k - 1) + [Flat(x0, y + BeamSize, x0, y + Gap(c) - BeamSize, z)]
  }

  /** The pieces between stripe positions 1 .. k along the face y = y0, running in x. */
  function PiecesAlongX(c: StripedCube, y0: real, z: real, k: nat): (ss: seq<Segment>)
    requires c.stripes >= 1 && (y0 == c.min.y || y0 == c.max.y)
    ensures |ss| == k && AllLevel(ss, c, z)
  {
    if k == 0 then []
    else
      var x := Step(c.min.x, c.max.x, k, c.stripes);
      PiecesAlongX(c, y0, z, k - 1) + [Flat(x + BeamSize, y0, x + Gap(c) - BeamSize, y0, z)]
  }

  /**
   * One perforated face x = x0: a corner piece from the min-y corner and one
   * into the max-y corner, each a gap less a beam long, then the pieces after
   * the inner stripe positions.
   */
  function FaceAlongY(c: StripedCube, x0: real, z: real): (ss: seq<Segment>)
    requires c.stripes >= 1 && (x0 == c.min.x || x0 == c.max.x)
    ensures |ss| == c.stripes + 1 && AllLevel(ss, c, z)
  {
    var g := Gap(c);
    var corners := [Flat(x0, c.min.y, x0, c.min.y + g - BeamSize, z), Flat(x0, c.max.y - g + BeamSize, x0, c.max.y, z)];
    var pieces := PiecesAlongY(c, x0, z, c.stripes - 1);
    LevelConcat(corners, pieces, c, z);
    corners + pieces
  }

  /** One perforated face y = y0, the same along x. */
  function FaceAlongX(c: StripedCube, y0: real, z: real): (ss: seq<Segment>)
    requires c.stripes >= 1 && (y0 == c.min.y || y0 == c.max.y)
    ensures |ss| == c.stripes + 1 && AllLevel(ss, c, z)
  {
    var g := Gap(c);
    var corners := [Flat(c.min.x, y0, c.min.x + g - BeamSize, y0, z), Flat(c.max.x - g + BeamSize, y0, c.max.x, y0, z)];
    var pieces := PiecesAlongX(c, y0, z, c.stripes - 1);
    LevelConcat(corners, pieces, c, z);
    corners + pieces
  }

  /**
   * A perforated band at height `z`: the faces x = x1, x = x2, y = y1 and
   * y = y2 in that order, each stripes + 1 segments long.
   */
  function Perforated(c: StripedCube, z: real): (ss: seq<Segment>)
    requires c.stripes >= 1
    ensures |ss| == 4 * (c.stripes + 1) && AllLevel(ss, c, z)
  {
    var west := FaceAlongY(c, c.min.x, z);
    var east := FaceAlongY(c, c.max.x, z);
    var south := FaceAlongX(c, c.min.y, z);
    var north := FaceAlongX(c, c.max.y, z);
    LevelConcat(west, east, c, z);
    LevelConcat(west + east, south, c, z);
    LevelConcat(west + east + south, north, c, z);
    west + east + south + north
  }

  /**
   * The corner pieces of a face reach its two corners, each a gap less a
   * beam long, and the inner pieces follow them.
   */
  lemma FaceCorners(c: StripedCube, x0: real, y0: real, z: real)
    requires c.stripes >= 1 && (x0 == c.min.x || x0 == c.max.x) && (y0 == c.min.y || y0 == c.max.y)
    ensures var f := FaceAlongY(c, x0, z);
      && f[0].a == Vector(x0, c.min.y, z) && f[0].b == Vector(x0, c.min.y + Gap(c) - BeamSize, z)
      && f[1].a == Vector(x0, c.max.y - Gap(c) + BeamSize, z) && f[1].b == Vector(x0, c.max.y, z)
      && f[2..] == PiecesAlongY(c, x0, z, c.stripes - 1)
    ensures var f := FaceAlongX(c, y0, z);
      && f[0].a == Vector(c.min.x, y0, z) && f[0].b == Vector(c.min.x + Gap(c) - BeamSize, y0, z)
      && f[1].a == Vector(c.max.x - Gap(c) + BeamSize, y0, z) && f[1].b == Vector(c.max.x, y0, z)
      && f[2..] == PiecesAlongX(c, y0, z, c.stripes - 1)
  {
  }

  /** A perforated band is its four faces in order, each stripes + 1 segments long. */
  lemma PerforatedFaces(c: StripedCube, z: real)
    requires c.stripes >= 1
    ensures var (ss, n) := (Perforated(c, z), c.stripes + 1);
      && ss[..n] == FaceAlongY(c, c.min.x, z)
      && ss[n .. 2 * n] == FaceAlongY(c, c.max.x, z)
      && ss[2 * n .. 3 * n] == FaceAlongX(c, c.min.y, z)
      && ss[3 * n ..] == FaceAlongX(c, c.max.y, z)
  {
    var (w, e) := (FaceAlongY(c, c.min.x, z), FaceAlongY(c, c.max.x, z));
    var (s, n) := (FaceAlongX(c, c.min.y, z), FaceAlongX(c, c.max.y, z));
    var k := c.stripes + 1;
    assert Perforated(c, z) == w + e + s + n;
    assert (w + e + s + n)[..k] == w;
    assert (w + e + s + n)[k .. 2 * k] == e;
    assert (w + e + s + n)[2 * k .. 3 * k] == s;
    assert (w + e + s + n)[3 * k ..] == n;
  }

  lemma LevelConcat(a: seq<Segment>, b: seq<Segment>, c: StripedCube, z: real)
    requires AllLevel(a, c, z) && AllLevel(b, c, z)
    ensures AllLevel(a + b, c, z)
  {
    forall j | 0 <= j < |a + b| ensures Level((a + b)[j], c, z) {
      if j < |a| { assert (a + b)[j] == a[j]; } else { assert (a + b)[j] == b[j - |a|]; }
    }
  }

  /** Band `i` of `nb`: a closed outline at the foot and the top, perforated in between. */
  function BandAt(c: StripedCube, i: int, nb: int): (ss: seq<Segment>)
    requires c.stripes >= 1 && nb >= 1
    ensures |ss| == if i == 0 || i == nb then 4 else 4 * (c.stripes + 1)
    ensures AllLevel(ss, c, BandHeight(c, i, nb))
  {
    var z := BandHeight(c, i, nb);
    if i == 0 || i == nb then Outline(c, z) else Perforated(c, z)
  }

  /** A horizontal segment along a side face at a height within the cube. */
  predicate Horizontal(s: Segment, c: StripedCube) {
    Level(s, c, s.a.z) && c.min.z <= s.a.z <= c.max.z
  }

  /** The band heights rise strictly from the foot (band 0) to the top (band nb). */
  lemma BandHeightsRise(c: StripedCube, i: int, j: int, nb: int)
    requires c.min.z < c.max.z && 0 <= i < j <= nb
    ensures BandHeight(c, i, nb) < BandHeight(c, j, nb)
  {
    var d := c.max.z - c.min.z;
    var fi := i as real / nb as real;
    var fj := j as real / nb as real;
    assert fi < fj;
    assert d * fi < d * fj;
  }

  predicate AllHorizontal(ss: seq<Segment>, c: StripedCube) {
    forall j :: 0 <= j < |ss| ==> Horizontal(ss[j], c)
  }

  lemma HorizontalConcat(a: seq<Segment>, b: seq<Segment>, c: StripedCube)
    requires AllHorizontal(a, c) && AllHorizontal(b, c)
    ensures AllHorizontal(a + b, c)
  {
    forall j | 0 <= j < |a + b| ensures Horizontal((a + b)[j], c) {
      if j < |a| { assert (a + b)[j] == a[j]; } else { assert (a + b)[j] == b[j - |a|]; }
    }
  }

  /** Every band of a drawable cube lies within the cube's height. */
  lemma BandWithin(c: StripedCube, i: int)
    requires Drawable(c) && 0 <= i <= BandCount(c)
    ensures AllHorizontal(BandAt(c, i, BandCount(c)), c)
  {
    var nb := BandCount(c);
    assert c.min.z < c.max.z;
    StepWithin(c.min.z, c.max.z, i, nb);
  }

  /** The number of segments in bands 0 .. k-1 of nb on a cube with `s` stripes. */
  function BandsLength(k: int, nb: int, s: int): int {
    if k <= 0 then 0 else if k <= nb then 4 + (k - 1) * 4 * (s + 1) else 8 + (nb - 1) * 4 * (s + 1)
  }

  lemma BandsLengthStep(k: int, nb: int, s: int)
    requires 1 <= k <= nb + 1 && 1 <= nb
    ensures BandsLength(k, nb, s) == BandsLength(k - 1, nb, s) + (if k - 1 == 0 || k - 1 == nb then 4 else 4 * (s + 1))
  {
    if 1 < k <= nb {
      assert (k - 1) * 4 * (s + 1) == (k - 2) * 4 * (s + 1) + 4 * (s + 1);
    }
  }

  /** The bands 0 .. k-1, in loop order. */
  function BandsBefore(c: StripedCube, k: nat): (ss: seq<Segment>)
    requires Drawable(c) && k <= BandCount(c) + 1
    ensures k >= 1 ==> |ss| >= 4 && ss[..4] == Outline(c, c.min.z)
    ensures AllHorizontal(ss, c)
  {
    if k == 0 then []
    else
      var prev := BandsBefore(c, k - 1);
      var band := BandAt(c, k - 1, BandCount(c));
      BandWithin(c, k - 1);
      HorizontalConcat(prev, band, c);
      BandsStart(c, prev, band, k);
      prev + band
  }

  /** The bands below band i are a prefix of the bands below band k. */
  lemma {:induction false} BandsPrefix(c: StripedCube, i: nat, k: nat)
    requires Drawable(c) && i <= k <= BandCount(c) + 1
    ensures |BandsBefore(c, i)| <= |BandsBefore(c, k)|
    ensures BandsBefore(c, k)[..|BandsBefore(c, i)|] == BandsBefore(c, i)
  {
    if i < k {
      var prev := BandsBefore(c, k - 1);
      BandsPrefix(c, i, k - 1);
      PrefixSlice(prev, BandAt(c, k - 1, BandCount(c)), 0, |BandsBefore(c, i)|);
    }
  }

  /** The bands 0 .. k-1 are, block by block, the bands at each height in order. */
  lemma BandBlock(c: StripedCube, k: nat, i: nat)
    requires Drawable(c) && i < k <= BandCount(c) + 1
    ensures |BandsBefore(c, i)| <= |BandsBefore(c, i + 1)| <= |BandsBefore(c, k)|
    ensures BandsBefore(c, k)[|BandsBefore(c, i)| .. |BandsBefore(c, i + 1)|] == BandAt(c, i, BandCount(c))
  {
    var (before, upto) := (BandsBefore(c, i), BandsBefore(c, i + 1));
    BandsPrefix(c, i + 1, k);
    LastSlice(before, BandAt(c, i, BandCount(c)));
    assert BandsBefore(c, k)[|before| .. |upto|] == upto[|before| ..];
  }

  /** Bands 0 .. k-1 hold 4 segments for each outline and 4 (stripes + 1) for each perforated band. */
  lemma {:induction false} BandsCount(c: StripedCube, k: nat)
    requires Drawable(c) && k <= BandCount(c) + 1
    ensures |BandsBefore(c, k)| == BandsLength(k, BandCount(c), c.stripes)
  {
    if k > 0 {
      BandsCount(c, k - 1);
      BandsLengthStep(k, BandCount(c), c.stripes);
    }
  }

  /** The first four segments of the bands are the outline at the foot. */
  lemma BandsStart(c: StripedCube, prev: seq<Segment>, band: seq<Segment>, k: nat)
    requires Drawable(c) && 1 <= k <= BandCount(c) + 1
    requires band == BandAt(c, k - 1, BandCount(c))
    requires k - 1 >= 1 ==> |prev| >= 4 && prev[..4] == Outline(c, c.min.z)
    requires k == 1 ==> prev == []
    ensures |prev + band| >= 4
    ensures (prev + band)[..4] == Outline(c, c.min.z)
  {
    if k == 1 {
      StepWithin(c.min.z, c.max.z, 0, BandCount(c));
      assert prev + band == band;
    } else {
      assert (prev + band)[..4] == prev[..4];
    }
  }

  /**
   * StripedCube.Paths: the vertical mullions, then the horizontal bands from
   * the foot up; the first and last bands are the closed outlines at the
   * foot and the top.
   */
  function Paths(c: StripedCube): (ps: seq<Segment>)
    requires Drawable(c)
    ensures |ps| == 8 * c.stripes + 8 + (BandCount(c) - 1) * 4 * (c.stripes + 1)
    ensures |ps| >= 8 * c.stripes + 8
    ensures forall j :: 0 <= j < 8 * c.stripes ==> Upright(ps[j], c) && OnFacePlane(ps[j].a, c)
    ensures forall j :: 8 * c.stripes <= j < |ps| ==> Horizontal(ps[j], c)
    ensures ps[8 * c.stripes .. 8 * c.stripes + 4] == Outline(c, c.min.z)
    ensures ps[|ps| - 4 ..] == Outline(c, c.max.z)
  {
    var vertical := MullionsBefore(c, c.stripes + 1);
    var horizontal := BandsBefore(c, BandCount(c) + 1);
    BandsCount(c, BandCount(c) + 1);
    TopOutline(c, horizontal);
    PathsSplit(c, vertical, horizontal);
    vertical + horizontal
  }

  /**
   * Stripe position i's mullions sit in Paths in loop order: after 4
   * segments for position 0 and 8 for each inner position before i.
   */
  lemma PathsMullions(c: StripedCube, i: nat)
    requires Drawable(c) && i <= c.stripes
    ensures var (lo, hi) := (if i == 0 then 0 else 8 * i - 4, if i == c.stripes then 8 * c.stripes else 8 * i + 4);
      hi <= |Paths(c)| && Paths(c)[lo .. hi] == Mullions(c, i)
  {
    PathsParts(c);
    MullionsAt(c, i, BandsBefore(c, BandCount(c) + 1));
  }

  lemma MullionsAt(c: StripedCube, i: nat, horizontal: seq<Segment>)
    requires c.stripes >= 1 && i <= c.stripes
    ensures var ps := MullionsBefore(c, c.stripes + 1) + horizontal;
      var (lo, hi) := (if i == 0 then 0 else 8 * i - 4, if i == c.stripes then 8 * c.stripes else 8 * i + 4);
      hi <= |ps| && ps[lo .. hi] == Mullions(c, i)
  {
    MullionBlock(c, c.stripes + 1, i);
    PrefixSlice(MullionsBefore(c, c.stripes + 1), horizontal, |MullionsBefore(c, i)|, |MullionsBefore(c, i + 1)|);
  }

  /**
   * Band i of nb sits in Paths in loop order: after the 8 stripes mullion
   * segments, 4 for the foot outline and 4 (stripes + 1) for each
   * perforated band before i.
   */
  lemma PathsBands(c: StripedCube, i: nat)
    requires Drawable(c) && i <= BandCount(c)
    ensures var (nb, s) := (BandCount(c), c.stripes);
      && 8 * s + BandsLength(i + 1, nb, s) <= |Paths(c)|
      && Paths(c)[8 * s + BandsLength(i, nb, s) .. 8 * s + BandsLength(i + 1, nb, s)] == BandAt(c, i, nb)
  {
    PathsParts(c);
    BandsAt(c, i, MullionsBefore(c, c.stripes + 1));
    BandsCount(c, i);
    BandsCount(c, i + 1);
  }

  lemma BandsAt(c: StripedCube, i: nat, vertical: seq<Segment>)
    requires Drawable(c) && i <= BandCount(c)
    ensures var (lo, hi) := (|vertical| + |BandsBefore(c, i)|, |vertical| + |BandsBefore(c, i + 1)|);
      var ps := vertical + BandsBefore(c, BandCount(c) + 1);
      lo <= hi <= |ps| && ps[lo .. hi] == BandAt(c, i, BandCount(c))
  {
    var horizontal := BandsBefore(c, BandCount(c) + 1);
    BandBlock(c, BandCount(c) + 1, i);
    SuffixSlice(vertical, horizontal, |BandsBefore(c, i)|, |BandsBefore(c, i + 1)|);
  }

  lemma PathsParts(c: StripedCube)
    requires Drawable(c)
    ensures Paths(c) == MullionsBefore(c, c.stripes + 1) + BandsBefore(c, BandCount(c) + 1)
    ensures |MullionsBefore(c, c.stripes + 1)| == 8 * c.stripes
  {
  }

  lemma PathsSplit(c: StripedCube, vertical: seq<Segment>, horizontal: seq<Segment>)
    requires |vertical| == 8 * c.stripes && AllUpright(vertical, c)
    requires |horizontal| >= 4 && AllHorizontal(horizontal, c)
    requires horizontal[..4] == Outline(c, c.min.z)
    requires horizontal[|horizontal| - 4 ..] == Outline(c, c.max.z)
    ensures var ps := vertical + horizontal;
      && (forall j :: 0 <= j < 8 * c.stripes ==> Upright(ps[j], c) && OnFacePlane(ps[j].a, c))
      && (forall j :: 8 * c.stripes <= j < |ps| ==> Horizontal(ps[j], c))
      && ps[8 * c.stripes .. 8 * c.stripes + 4] == Outline(c, c.min.z)
      && ps[|ps| - 4 ..] == Outline(c, c.max.z)
  {
    var ps := vertical + horizontal;
    forall j | 0 <= j < 8 * c.stripes ensures Upright(ps[j], c) && OnFacePlane(ps[j].a, c) {
      assert ps[j] == vertical[j];
    }
    forall j | 8 * c.stripes <= j < |ps| ensures Horizontal(ps[j], c) {
      assert ps[j] == horizontal[j - 8 * c.stripes];
    }
    assert ps[8 * c.stripes .. 8 * c.stripes + 4] == horizontal[..4];
    assert ps[|ps| - 4 ..] == horizontal[|horizontal| - 4 ..];
  }

  /** The last four segments of the bands are the outline at the top. */
  lemma TopOutline(c: StripedCube, horizontal: seq<Segment>)
    requires Drawable(c) && horizontal == BandsBefore(c, BandCount(c) + 1)
    ensures |horizontal| >= 4 && horizontal[|horizontal| - 4 ..] == Outline(c, c.max.z)
  {
    var nb := BandCount(c);
    assert horizontal == BandsBefore(c, nb) + BandAt(c, nb, nb);
    assert c.min.z < c.max.z;
    StepWithin(c.min.z, c.max.z, nb, nb);
    assert horizontal[|horizontal| - 4 ..] == BandAt(c, nb, nb);
  }

  /**
   * On the faces x = x1 and x = x2 the perforations use the gap computed from
   * the X width. The piece after inner stripe position m ends BeamSize short
   * of position m + 1 exactly when the footprint is square; on a square
   * footprint every piece spans from BeamSize past one position to BeamSize
   * before the next.
   */
  lemma {:induction false} PiecesAlongYSpan(c: StripedCube, x0: real, z: real, k: nat, m: nat)
    requires c.stripes >= 1 && (x0 == c.min.x || x0 == c.max.x)
    requires 1 <= m <= k
    ensures var s := PiecesAlongY(c, x0, z, k)[m - 1];
      && s.a.x == x0 && s.b.x == x0
      && s.a.y == Step(c.min.y, c.max.y, m, c.stripes) + BeamSize
      && s.b.y == Step(c.min.y, c.max.y, m, c.stripes) + Gap(c) - BeamSize
      && (s.b.y == Step(c.min.y, c.max.y, m + 1, c.stripes) - BeamSize <==> c.max.x - c.min.x == c.max.y - c.min.y)
  {
    if m < k {
      PiecesAlongYSpan(c, x0, z, k - 1, m);
      assert PiecesAlongY(c, x0, z, k)[m - 1] == PiecesAlongY(c, x0, z, k - 1)[m - 1];
    } else {
      NextStep(c.min.y, c.max.y, m, c.stripes);
      SameGap(c.max.x - c.min.x, c.max.y - c.min.y, c.stripes as real);
    }
  }

  /**
   * On the faces y = y1 and y = y2 the piece after inner stripe position m
   * lies on its face and spans from BeamSize past position m to BeamSize
   * before position m + 1, whatever the footprint: the gap comes from the X
   * width, along which these pieces run.
   */
  lemma {:induction false} PiecesAlongXSpan(c: StripedCube, y0: real, z: real, k: nat, m: nat)
    requires c.stripes >= 1 && (y0 == c.min.y || y0 == c.max.y)
    requires 1 <= m <= k
    ensures var s := PiecesAlongX(c, y0, z, k)[m - 1];
      && s.a.y == y0 && s.b.y == y0
      && s.a.x == Step(c.min.x, c.max.x, m, c.stripes) + BeamSize
      && s.b.x == Step(c.min.x, c.max.x, m + 1, c.stripes) - BeamSize
  {
    if m < k {
      PiecesAlongXSpan(c, y0, z, k - 1, m);
      assert PiecesAlongX(c, y0, z, k)[m - 1] == PiecesAlongX(c, y0, z, k - 1)[m - 1];
    } else {
      NextStep(c.min.x, c.max.x, m, c.stripes);
    }
  }

  /** Consecutive stripe positions are (hi - lo) / n apart. */
  lemma NextStep(lo: real, hi: real, m: int, n: int)
    requires n >= 1
    ensures Step(lo, hi, m + 1, n) == Step(lo, hi, m, n) + (hi - lo) / n as real
  {
    var d := hi - lo;
    var r := n as real;
    assert (m + 1) as real / r == m as real / r + 1.0 / r;
    assert d * ((m + 1) as real / r) == d * (m as real / r) + d * (1.0 / r);
  }

  lemma SameGap(w: real, d: real, n: real)
    requires n > 0.0
    ensures w / n == d / n <==> w == d
  {
    if w / n == d / n {
      assert w == (w / n) * n && d == (d / n) * n;
    }
  }

  /**
   * The trailing corner piece of a west or east perforated face already
   * covers the piece after the last inner stripe position: on a square
   * footprint with at least two stripes that span is drawn twice. In a
   * perforated band that is segment `stripes` of the west face against its
   * segment 1, and the same pair one face later on the east.
   */
  lemma LastPieceOverlapsCorner(c: StripedCube, z: real)
    requires c.stripes >= 2
    requires c.max.x - c.min.x == c.max.y - c.min.y
    ensures var (ss, n) := (Perforated(c, z), c.stripes);
      && ss[1].a.y == ss[n].a.y && ss[n].b.y < ss[1].b.y
      && ss[n + 2].a.y == ss[2 * n + 1].a.y && ss[2 * n + 1].b.y < ss[n + 2].b.y
  {
    var (ss, n) := (Perforated(c, z), c.stripes);
    PerforatedFaces(c, z);
    FaceOverlap(c, c.min.x, z);
    FaceOverlap(c, c.max.x, z);
    assert ss[1] == FaceAlongY(c, c.min.x, z)[1] && ss[n] == FaceAlongY(c, c.min.x, z)[n];
    assert ss[n + 2] == FaceAlongY(c, c.max.x, z)[1] && ss[2 * n + 1] == FaceAlongY(c, c.max.x, z)[n];
  }

  /** On one x face of a square footprint, the last inner piece starts with the trailing corner piece and ends inside it. */
  lemma FaceOverlap(c: StripedCube, x0: real, z: real)
    requires c.stripes >= 2 && (x0 == c.min.x || x0 == c.max.x)
    requires c.max.x - c.min.x == c.max.y - c.min.y
    ensures var (f, n) := (FaceAlongY(c, x0, z), c.stripes);
      f[1].a.y == f[n].a.y && f[n].b.y < f[1].b.y
  {
    var n := c.stripes;
    var f := FaceAlongY(c, x0, z);
    FaceCorners(c, x0, c.min.y, z);
    PiecesAlongYSpan(c, x0, z, n - 1, n - 1);
    assert f[n] == PiecesAlongY(c, x0, z, n - 1)[n - 2];
    var d := c.max.y - c.min.y;
    assert Step(c.min.y, c.max.y, n - 1, n) == c.max.y - Gap(c) by {
      assert (n - 1) as real / n as real == 1.0 - 1.0 / n as real;
      assert d * ((n - 1) as real / n as real) == d - d * (1.0 / n as real);
    }
  }

  /**
   * On a south or north face with at least two stripes the last inner piece
   * likewise starts where the trailing corner piece starts and ends inside
   * it, whatever the footprint, because the gap comes from the X width.
   */
  lemma FaceOverlapAlongX(c: StripedCube, y0: real, z: real)
    requires c.stripes >= 2 && (y0 == c.min.y || y0 == c.max.y)
    ensures var (f, n) := (FaceAlongX(c, y0, z), c.stripes);
      f[1].a.x == f[n].a.x && f[n].b.x < f[1].b.x
  {
    var n := c.stripes;
    var f := FaceAlongX(c, y0, z);
    FaceCorners(c, c.min.x, y0, z);
    PiecesAlongXSpan(c, y0, z, n - 1, n - 1);
    assert f[n] == PiecesAlongX(c, y0, z, n - 1)[n - 2];
    var d := c.max.x - c.min.x;
    assert Step(c.min.x, c.max.x, n - 1, n) == c.max.x - Gap(c) by {
      assert (n - 1) as real / n as real == 1.0 - 1.0 / n as real;
      assert d * ((n - 1) as real / n as real) == d - d * (1.0 / n as real);
    }
    assert Step(c.min.x, c.max.x, n, n) == c.max.x by {
      assert n as real / n as real == 1.0;
    }
  }

  /**
   * In every perforated band with at least two stripes, segment stripes of
   * the south face overlaps its segment 1 in the same way, and so does the
   * same pair on the north face: those spans are drawn twice.
   */
  lemma LastPieceOverlapsCornerAlongX(c: StripedCube, z: real)
    requires c.stripes >= 2
    ensures var (ss, n) := (Perforated(c, z), c.stripes);
      && ss[2 * n + 3].a.x == ss[3 * n + 2].a.x && ss[3 * n + 2].b.x < ss[2 * n + 3].b.x
      && ss[3 * n + 4].a.x == ss[4 * n + 3].a.x && ss[4 * n + 3].b.x < ss[3 * n + 4].b.x
  {
    var (ss, n) := (Perforated(c, z), c.stripes);
    PerforatedFaces(c, z);
    FaceOverlapAlongX(c, c.min.y, z);
    FaceOverlapAlongX(c, c.max.y, z);
    assert ss[2 * n + 3] == FaceAlongX(c, c.min.y, z)[1] && ss[3 * n + 2] == FaceAlongX(c, c.min.y, z)[n];
    assert ss[3 * n + 4] == FaceAlongX(c, c.max.y, z)[1] && ss[4 * n + 3] == FaceAlongX(c, c.max.y, z)[n];
  }
}
